=== FILE: README.md ===
# Headless ComfyUI worker: capture adapter and `/generate` endpoint

This project models the adapter that runs a ComfyUI workflow headlessly and
returns the generated images in an HTTP response. The model covers:

- the `DummyServer` progress sink, which remembers the node announced by the
  last `"executing"` message;
- `init_comfyui`, the setup that completes once per process behind the
  `_initialized` flag (a call that raises leaves the flag clear, so the next
  call runs the setup again);
- `execute_workflow`. It patches `SaveImage.save_images` and
  `PreviewImage.save_images` with the `capture_save_images` hook, runs the
  engine, and restores the saved hook in a `finally`. The hook encodes each
  image of a batch as PNG and files the bytes under the node currently
  announced by the sink;
- `generate` in `src/app.py`. It flattens the capture table into one response
  entry per image, each holding the node id and the image's base64 text
  (section 4 of RFC 4648). A `ValueError` becomes a 400 that carries its
  message. Any other exception becomes a 500 whose detail is
  `"Execution failed: "` followed by the message.

The engine is not modelled as code. A run is a `Trace`: the messages it sends
to the sink, the `save_images` calls it makes, and whether it finally returns
or raises. The adapter's state after a run is a fold of `Worker.Step` over
the trace (`Worker.Replay`).

Against that fold, a reference semantics is defined over the trace alone:

- `Worker.Attribution` is the node of the last `"executing"` event.
- `Worker.CapturedFor` is every image saved through a patched slot while a
  given node was announced, in production order.

The main theorems relate the fold, and then the HTTP response, to that
reference:

- `Worker.ReplayCaptures` and `Worker.RunCaptures`: no attributed image is lost,
  and none is filed under the wrong node. Images saved while no node is
  announced are dropped on purpose (`Worker.UnattributedDropped`,
  `Worker.EarlySaveDropped`).
- `Gateway.GenerateCaptures`: decoding the response texts for a node gives
  back exactly the images captured for that node.

Modules:

- `Wrappers` defines `Option` and `Result`.
- `Bytes` defines bytes.
- `Base64` is the encoder plus a strict decoder, proved to be mutual
  inverses.
- `Engine` defines the trace vocabulary.
- `Pixels` converts channel values to 8-bit.
- `Progress` models the sink.
- `CaptureTable` models the insertion-ordered dict.
- `Bootstrap` models `init_comfyui`.
- `Worker` models the hook and `execute_workflow`.
- `Gateway` models `generate`.

## Notes on the code

- An `ImportError` while importing `worker_logic` (src/app.py:15-21) makes
  every request answer 500 with `"Worker logic module not loaded."`. Any
  other exception raised by that import stops `src/app.py` from loading,
  so no request is served at all. An exception raised inside
  `init_comfyui`, or in constructing the executor, escapes before any hook
  is patched, leaves both slots as they were, and goes through the same
  `except` clauses as an engine failure.
- The `finally` restores *both* slots to the value saved from
  `SaveImage.save_images`, so `PreviewImage` ends up with SaveImage's hook
  rather than its own. The model does the same: `Worker.ExecuteWorkflow`
  sets both slots to SaveImage's earlier hook.
- A node whose batch is empty still gets a key with an empty list. That key
  adds nothing to the response.

## Model

| member | source | states |
|---|---|---|
| `Progress.SendSync` | worker_logic.py:40-42 | an `"executing"` message sets the current node to the payload's `node` (None when absent); every other message leaves the sink unchanged |
| `Progress.QueueUpdated` | worker_logic.py:44-45 | `queue_updated` leaves the current node unchanged |
| `Bootstrap.InitComfyUI` | worker_logic.py:53-83 | once the flag is set a call is a no-op; the flag ends up set iff it already was or nothing raised; a raised exception comes from the directory setup or the node registration; a failing directory setup raises its exception and changes nothing; a failing registration (no loop running) raises its exception and leaves the flag clear; the directories are set once per successful first call; nodes are registered only when no event loop is running; a first call with a running loop and working directories succeeds |
| `Bootstrap.InitIdempotent` | worker_logic.py:53-56 | after a successful call, a second call changes nothing and raises nothing |
| `Bootstrap.InitRepeated` | worker_logic.py:53-83 | any number of calls after a successful one leave exactly the state of that first call |
| `Bootstrap.StaysInitialized` | worker_logic.py:55-56 | once the flag is set, no sequence of calls changes the state |
| `Bootstrap.RetryAfterFailure` | worker_logic.py:58-83 | a call that raises leaves the flag clear, so the next call sets up the directories again |
| `Bootstrap.FreshProcessSetsUpOnce` | worker_logic.py:48-83 | in a freshly imported module, a first call with no running loop that raises nothing sets the flag, sets up the directories once and registers the nodes once, and no later call repeats either |
| `Bootstrap.RegistrationSkippedForGood` | worker_logic.py:69-83 | if a loop is running at the first successful call, node registration is skipped yet the flag is set, so no later call ever registers the nodes |
| `Pixels.ToChannel` | worker_logic.py:122-123 | a channel value at or below 0 gives 0, at or above 1 gives 255, and in between gives the floor of 255 times the value; nothing wraps around |
| `Pixels.ToChannelMonotonic` | worker_logic.py:122-123 | larger channel values never give smaller bytes |
| `Pixels.ToPixels` | worker_logic.py:121-123 | the 8-bit image has one byte per channel value, converted pointwise |
| `Worker.Encodings` | worker_logic.py:121-127 | the PNG bytes of a batch, one per image, in batch order |
| `Worker.StoreAll` | worker_logic.py:121-130 | with a known node, its list grows by the batch's encodings in order; no other key's list and no key order changes |
| `Worker.Acks` | worker_logic.py:132-138 | the hook returns one `captured.png` acknowledgement per image |
| `CaptureTable.EnsureKey` | worker_logic.py:117-119 | an absent node becomes a new last key with an empty list; a present one keeps its list; other keys are unchanged; the table stays a dict |
| `CaptureTable.Append` | worker_logic.py:129-130 | appending to a present key extends only that key's list by one element and keeps the key order |
| `Worker.CaptureSaveImages` | worker_logic.py:110-138 | with a node, its list exists afterwards (even for an empty batch) and is its previous list followed by the batch's encodings, and nothing else changes; without a node the table is unchanged; either way there is one acknowledgement per image |
| `Worker.StepFind` | worker_logic.py:110-138 | one engine event changes a node's list only if it is a save call through a patched slot while that node is announced |
| `Worker.AttributionIsLastExecuting` | worker_logic.py:40-42 | the reference attribution is the node of the last `"executing"` event |
| `Worker.AttributionWithoutExecuting` | worker_logic.py:36-42 | with no `"executing"` event there is no attribution, as in a fresh sink |
| `Worker.ReplaySink` | worker_logic.py:40-42 | during a run the sink always holds the reference attribution of the events so far |
| `Worker.ReplayDistinct` | worker_logic.py:105-130 | the capture table stays a dict (no key twice) through a run |
| `Worker.ReplayFind` | worker_logic.py:101-147 | after a run, a node has a list iff some save call reached the hook while it was announced, and that list is exactly the images attributed to it, in production order |
| `Worker.ReplayCaptures` | worker_logic.py:101-147 | a node is a key iff a save call was attributed to it, and its list is everything attributed to it: nothing lost, nothing misattributed |
| `Worker.UnattributedDropped` | worker_logic.py:115-119 | images saved before any node is announced are dropped: with no `"executing"` event the table stays empty |
| `Worker.EarlySaveDropped` | worker_logic.py:36-119 | a save made before the first `"executing"` event is attributed to no node, whatever later events announce |
| `Worker.ReplayKeysGrow` | worker_logic.py:117-130 | the keys after any prefix of the trace are a prefix of the final keys, so keys keep the order of first capture |
| `Worker.ExecuteWorkflow` | worker_logic.py:85-153 | if `init_comfyui` raises, or constructing the executor raises after it, that exception escapes and the slots are untouched; otherwise both slots end up holding SaveImage's earlier hook whether the engine returned or raised; the run succeeds iff setup and executor construction succeeded and the engine returned; an engine exception escapes unchanged; the returned table is a dict |
| `Worker.RunCaptures` | worker_logic.py:101-153 | the table a successful run returns holds exactly the images saved while each node was executing, grouped by node and in production order, starting from an empty table |
| `Base64.Encode` | src/app.py:48 | four characters for every started group of three bytes |
| `Base64.EncodeAlphabet` | src/app.py:48 | the text holds only alphabet symbols and `=`, and `=` appears only in the last two positions |
| `Base64.DecodeEncode` | src/app.py:48 | decoding the encoding of any bytes gives those bytes back |
| `Base64.EncodeDecode` | src/app.py:48 | every text the strict decoder accepts is the encoding of what it decodes to, so the encoding is canonical |
| `Base64.EncodeAppend` | src/app.py:48 | the encoding of bytes whose length is a multiple of three, followed by more bytes, is the two encodings concatenated |
| `Base64.FakeImageDataVector` | tests/test_api_endpoint.py:48-50 | `b"fake_image_data"` encodes to `ZmFrZV9pbWFnZV9kYXRh` |
| `Gateway.EntryImages` | src/app.py:47-49 | one response entry per image of a key, in list order, each holding the key and the image's base64 text |
| `Gateway.Flatten` | src/app.py:45-49 | the response has one entry per captured image, and every entry's node id is a key of the table |
| `Gateway.FlattenAppend` | src/app.py:46-49 | the response follows key insertion order: the entries for earlier keys come before those for later keys |
| `Gateway.ErrorResponse` | src/app.py:53-59 | a `ValueError` gives 400 with its message verbatim; any other exception gives 500 with `"Execution failed: "` and the message; no other status occurs |
| `Gateway.ErrorDetailEndsWithMessage` | src/app.py:53-59 | every error detail ends with the exception's own message |
| `Gateway.Respond` | src/app.py:40-59 | a returned table gives 200 with its flattened entries; an escaped exception gives that exception's error response |
| `Gateway.Generate` | src/app.py:36-59 | without the worker module the answer is 500 `"Worker logic module not loaded."` and nothing runs; otherwise the process state is the run's and the answer is `Respond` of the run's result (so a `ValueError` gives 400 with its message and any other exception 500 with the prefixed message); the answer is 200 iff the module loaded, setup and executor construction succeeded and the engine returned; every error status is 400 or 500 |
| `Gateway.DecodeAll` | src/app.py:48 | a successful decode of a list of texts decodes each text to the corresponding element |
| `Gateway.EncodeAll` | src/app.py:47-48 | the base64 texts of a list of byte strings, element by element |
| `Gateway.DecodeAllEncodeAll` | src/app.py:48 | decoding the encodings of a list of byte strings gives the list back |
| `Gateway.DataForFlatten` | src/app.py:45-49 | in the response, the texts filed under a node are the encodings of that node's list, in order, and none if it is absent |
| `Gateway.FlattenRecovers` | src/app.py:45-49 | decoding the response texts filed under a node gives back exactly that node's list of PNG byte strings |
| `Gateway.GenerateCaptures` | src/app.py:40-51 | a 200 from `/generate` carries, under each node id, exactly the images the engine saved while that node was executing, in production order |
| `Gateway.SuccessScenario` | tests/test_api_endpoint.py:26-50 | a run returning `{"9": [b"fake_image_data"]}` yields one entry, node `"9"`, data `ZmFrZV9pbWFnZV9kYXRh` |
| `Gateway.ValidationErrorScenario` | tests/test_api_endpoint.py:52-63 | `ValueError("Invalid node connection")` yields 400 with that message |
| `Gateway.ServerErrorScenario` | tests/test_api_endpoint.py:65-76 | `RuntimeError("OOM Error")` yields 500 with `"Execution failed: OOM Error"` |

## Left out

- Module import side effects (the `sys.path` edits, the `--cpu` flag, `enable_args_parsing`, creating the `input`/`output`/`temp` directories at import time) are process setup outside the run. The model starts from the imported state.
- The engine's internals (graph validation, scheduling, tensor computation, `PromptExecutor`) are out of scope. The engine is a given trace: whether constructing its executor raises, the events it produces, and how it ends.
- The trace assumes the engine reports the executing node by sending `"executing"` events to the sink it was given (worker_logic.py:102-103); whether and when it does so is up to the engine.
- PNG encoding is a deterministic function parameter (`Worker.PngEncoder`). PIL's encoder is not modelled, and neither is the tensor layout `B, H, W, C`: an image is a flat sequence of channel values.
- `Pixels.ToChannel`: channel values are reals. NaN and infinities of NumPy's floats are not modelled.
- `uuid.uuid4()` produces a prompt id that nothing in the adapter reads. Randomness is left out.
- The `DummyServer` fields `client_id`, `last_node_id` and `last_prompt_id` are not read by the adapter, so they are not modelled; whether the engine reads them is up to its code, which is not part of this model. Neither are the `sid` and other payload keys of `send_sync`.
- An original `save_images` writes files to disk. The model does not follow that write and records only that the table is untouched.
- FastAPI routing, pydantic validation of the request body, JSON serialisation and logging are not modelled. The workflow body is passed to the engine unread.
- `Gateway.Generate`: its `loaded` flag covers only an `ImportError` from `import worker_logic` (src/app.py:15-21). Any other exception raised by that import stops `src/app.py` from loading, so there is no endpoint to model.
- `BaseException`s that are not `Exception`s (such as `KeyboardInterrupt`) escape `generate` uncaught. The model's exceptions are only `ValueError` (with its subclasses) and other `Exception`s.
- Concurrency is left out: two requests running in one process would share the patched class attributes, and the model has one run at a time.
- The web frontend under `frontend/` is not part of this model.
- Neither `src/app.py` nor `worker_logic.py` uploads images to a remote store or returns URLs, so the model has no such step.

=== FILE: base64.dfy ===
/**
  Base 64 encoding with the standard alphabet and `=` padding, as defined in
  section 4 of RFC 4648 (Python's `base64.b64encode`). The decoder is the
  strict inverse: it accepts exactly the canonical encodings (section 3.5 of
  RFC 4648 requires the pad bits to be zero), so `Encode` and `Decode` are
  proved to be mutually inverse in both directions.
 */
module Base64 {
  import opened Wrappers
  import opened Bytes

  /** The value of one base 64 digit. */
  type sextet = x: int | 0 <= x < 64

  /** The padding character. */
  const Pad: char := '='

  /** True of the 64 characters of the standard alphabet (Table 1 of RFC 4648). */
  predicate IsSymbol(c: char) {
    ('A' <= c <= 'Z') || ('a' <= c <= 'z') || ('0' <= c <= '9') || c == '+' || c == '/'
  }

  /** The value a character of the alphabet stands for. */
  function Value(c: char): (v: sextet)
    requires IsSymbol(c)
  {
    if 'A' <= c <= 'Z' then c as int - 'A' as int
    else if 'a' <= c <= 'z' then c as int - 'a' as int + 26
    else if '0' <= c <= '9' then c as int - '0' as int + 52
    else if c == '+' then 62
    else 63
  }

  /** The character of Table 1 of RFC 4648 that encodes `v`. */
  function Symbol(v: sextet): (c: char)
    ensures IsSymbol(c) && c != Pad
  {
    if v < 26 then (v + 'A' as int) as char
    else if v < 52 then (v - 26 + 'a' as int) as char
    else if v < 62 then (v - 52 + '0' as int) as char
    else if v == 62 then '+'
    else '/'
  }

  /** `Value` inverts `Symbol`... */
  lemma SymbolValue(v: sextet)
    ensures Value(Symbol(v)) == v
  {
  }

  /** ...and `Symbol` inverts `Value`: Table 1 is a bijection. */
  lemma ValueSymbol(c: char)
    requires IsSymbol(c)
    ensures Symbol(Value(c)) == c
  {
  }

  /** Three octets become four digits (section 4 of RFC 4648). */
  function EncodeQuantum(b0: byte, b1: byte, b2: byte): seq<char> {
    [Symbol(b0 / 4), Symbol((b0 % 4) * 16 + b1 / 16), Symbol((b1 % 16) * 4 + b2 / 64), Symbol(b2 % 64)]
  }

  /** A final group of two octets: three digits and one pad character. */
  function EncodeFinal2(b0: byte, b1: byte): seq<char> {
    [Symbol(b0 / 4), Symbol((b0 % 4) * 16 + b1 / 16), Symbol((b1 % 16) * 4), Pad]
  }

  /** A final group of one octet: two digits and two pad characters. */
  function EncodeFinal1(b0: byte): seq<char> {
    [Symbol(b0 / 4), Symbol((b0 % 4) * 16), Pad, Pad]
  }

  /** `base64.b64encode(s).decode('utf-8')`. */
  function Encode(s: Blob): (r: string)
    ensures |r| == 4 * ((|s| + 2) / 3)
    decreases |s|
  {
    if |s| == 0 then []
    else if |s| == 1 then EncodeFinal1(s[0])
    else if |s| == 2 then EncodeFinal2(s[0], s[1])
    else EncodeQuantum(s[0], s[1], s[2]) + Encode(s[3..])
  }

  /**
    True of a text made only of alphabet characters and pad characters,
    with padding only in the last two positions.
   */
  predicate IsPaddedText(r: string) {
    && (forall i :: 0 <= i < |r| ==> IsSymbol(r[i]) || r[i] == Pad)
    && (forall i :: 0 <= i < |r| - 2 ==> r[i] != Pad)
  }

  /** Every encoding is a padded text over the standard alphabet. */
  lemma {:induction false} EncodeAlphabet(s: Blob)
    ensures IsPaddedText(Encode(s))
    decreases |s|
  {
    if |s| >= 3 {
      var q := EncodeQuantum(s[0], s[1], s[2]);
      var rest := Encode(s[3..]);
      EncodeAlphabet(s[3..]);
      assert IsPaddedText(rest);
      var r := Encode(s);
      assert r == q + rest;
      forall i | 0 <= i < |r|
        ensures (IsSymbol(r[i]) || r[i] == Pad) && (i < |r| - 2 ==> r[i] != Pad)
      {
        if i < 4 {
          assert r[i] == q[i];
          assert IsSymbol(q[0]) && IsSymbol(q[1]) && IsSymbol(q[2]) && IsSymbol(q[3]);
          assert q[0] != Pad && q[1] != Pad && q[2] != Pad && q[3] != Pad;
        } else {
          assert r[i] == rest[i - 4];
        }
      }
    }
  }

  /** Four digits become three octets. */
  function DecodeQuantum(c0: char, c1: char, c2: char, c3: char): seq<byte>
    requires IsSymbol(c0) && IsSymbol(c1) && IsSymbol(c2) && IsSymbol(c3)
  {
    var v0: int, v1: int, v2: int, v3: int := Value(c0), Value(c1), Value(c2), Value(c3);
    [v0 * 4 + v1 / 16, (v1 % 16) * 16 + v2 / 4, (v2 % 4) * 64 + v3]
  }

  /**
    The strict decoder: None for any text that `Encode` cannot produce
    (wrong length, a character outside the alphabet, misplaced padding,
    non-zero pad bits).
   */
  function Decode(t: string): (r: Option<Blob>)
    decreases |t|
  {
    if |t| == 0 then Some([])
    else if |t| < 4 || !IsSymbol(t[0]) || !IsSymbol(t[1]) then None
    else if |t| == 4 && t[2] == Pad && t[3] == Pad then
      if Value(t[1]) % 16 == 0 then Some([Value(t[0]) * 4 + Value(t[1]) / 16]) else None
    else if |t| == 4 && IsSymbol(t[2]) && t[3] == Pad then
      if Value(t[2]) % 4 == 0
      then Some([Value(t[0]) * 4 + Value(t[1]) / 16, (Value(t[1]) % 16) * 16 + Value(t[2]) / 4])
      else None
    else if IsSymbol(t[2]) && IsSymbol(t[3]) then
      match Decode(t[4..])
      case None => None
      case Some(rest) => Some(DecodeQuantum(t[0], t[1], t[2], t[3]) + rest)
    else None
  }

  /** Splitting `hi * k + lo` back into its two digits, for the three radices used. */
  lemma Split(hi: int, lo: int, k: int)
    requires k == 4 || k == 16 || k == 64
    requires 0 <= lo < k
    ensures (hi * k + lo) / k == hi && (hi * k + lo) % k == lo
  {
  }

  /** The digit arithmetic of a quantum, octets first: regrouping the digits gives back the octets. */
  lemma OctetsRoundTrip(b0: int, b1: int, b2: int)
    requires 0 <= b0 < 256 && 0 <= b1 < 256 && 0 <= b2 < 256
    ensures var v0, v1, v2, v3 := b0 / 4, (b0 % 4) * 16 + b1 / 16, (b1 % 16) * 4 + b2 / 64, b2 % 64;
            && v0 * 4 + v1 / 16 == b0 && (v1 % 16) * 16 + v2 / 4 == b1 && (v2 % 4) * 64 + v3 == b2
  {
    Split(b0 % 4, b1 / 16, 16);
    Split(b1 % 16, b2 / 64, 4);
  }

  lemma QuantumRoundTrip(b0: byte, b1: byte, b2: byte)
    ensures var q := EncodeQuantum(b0, b1, b2);
            DecodeQuantum(q[0], q[1], q[2], q[3]) == [b0, b1, b2]
  {
    var v0: int, v1: int, v2: int, v3: int := b0 / 4, (b0 % 4) * 16 + b1 / 16, (b1 % 16) * 4 + b2 / 64, b2 % 64;
    OctetsRoundTrip(b0, b1, b2);
    SymbolValue(v0);
    SymbolValue(v1);
    SymbolValue(v2);
    SymbolValue(v3);
    var q := EncodeQuantum(b0, b1, b2);
    assert q == [Symbol(v0), Symbol(v1), Symbol(v2), Symbol(v3)];
    assert Value(q[0]) == v0 && Value(q[1]) == v1 && Value(q[2]) == v2 && Value(q[3]) == v3;
  }

  /** The digit arithmetic of a quantum, digits first: regrouping the octets gives back the digits. */
  lemma DigitsRoundTrip(v0: int, v1: int, v2: int, v3: int)
    requires 0 <= v0 < 64 && 0 <= v1 < 64 && 0 <= v2 < 64 && 0 <= v3 < 64
    ensures var b0, b1, b2 := v0 * 4 + v1 / 16, (v1 % 16) * 16 + v2 / 4, (v2 % 4) * 64 + v3;
            && b0 / 4 == v0 && (b0 % 4) * 16 + b1 / 16 == v1
            && (b1 % 16) * 4 + b2 / 64 == v2 && b2 % 64 == v3
  {
    Split(v0, v1 / 16, 4);
    Split(v1 % 16, v2 / 4, 16);
    Split(v2 % 4, v3, 64);
  }

  lemma QuantumCanonical(c0: char, c1: char, c2: char, c3: char)
    requires IsSymbol(c0) && IsSymbol(c1) && IsSymbol(c2) && IsSymbol(c3)
    ensures var q := DecodeQuantum(c0, c1, c2, c3);
            EncodeQuantum(q[0], q[1], q[2]) == [c0, c1, c2, c3]
  {
    var v0: int, v1: int, v2: int, v3: int := Value(c0), Value(c1), Value(c2), Value(c3);
    DigitsRoundTrip(v0, v1, v2, v3);
    var q := DecodeQuantum(c0, c1, c2, c3);
    var b0: int, b1: int, b2: int := q[0], q[1], q[2];
    assert b0 / 4 == v0;
    assert (b0 % 4) * 16 + b1 / 16 == v1;
    assert (b1 % 16) * 4 + b2 / 64 == v2;
    assert b2 % 64 == v3;
    ValueSymbol(c0);
    ValueSymbol(c1);
    ValueSymbol(c2);
    ValueSymbol(c3);
  }

  lemma Final2Canonical(c0: char, c1: char, c2: char)
    requires IsSymbol(c0) && IsSymbol(c1) && IsSymbol(c2) && Value(c2) % 4 == 0
    ensures EncodeFinal2(Value(c0) * 4 + Value(c1) / 16, (Value(c1) % 16) * 16 + Value(c2) / 4) == [c0, c1, c2, Pad]
  {
    var v0: int, v1: int, v2: int := Value(c0), Value(c1), Value(c2);
    DigitsRoundTrip(v0, v1, v2, 0);
    var b0: int, b1: int := v0 * 4 + v1 / 16, (v1 % 16) * 16 + v2 / 4;
    assert b0 / 4 == v0;
    assert (b0 % 4) * 16 + b1 / 16 == v1;
    assert (b1 % 16) * 4 == v2;
    ValueSymbol(c0);
    ValueSymbol(c1);
    ValueSymbol(c2);
  }

  lemma Final1Canonical(c0: char, c1: char)
    requires IsSymbol(c0) && IsSymbol(c1) && Value(c1) % 16 == 0
    ensures EncodeFinal1(Value(c0) * 4 + Value(c1) / 16) == [c0, c1, Pad, Pad]
  {
    var v0: int, v1: int := Value(c0), Value(c1);
    DigitsRoundTrip(v0, v1, 0, 0);
    var b0: int := v0 * 4 + v1 / 16;
    assert b0 / 4 == v0;
    assert (b0 % 4) * 16 == v1;
    ValueSymbol(c0);
    ValueSymbol(c1);
  }

  /** Decoding undoes encoding, for every byte string. */
  lemma {:induction false} DecodeEncode(s: Blob)
    ensures Decode(Encode(s)) == Some(s)
    decreases |s|
  {
    if |s| >= 3 {
      var t := Encode(s);
      var q := EncodeQuantum(s[0], s[1], s[2]);
      assert t == q + Encode(s[3..]);
      assert t[..4] == q && t[4..] == Encode(s[3..]);
      assert t[0] == q[0] && t[1] == q[1] && t[2] == q[2] && t[3] == q[3];
      assert IsSymbol(t[0]) && IsSymbol(t[1]) && IsSymbol(t[2]) && IsSymbol(t[3]);
      assert t[3] != Pad;
      DecodeEncode(s[3..]);
      QuantumRoundTrip(s[0], s[1], s[2]);
      assert Decode(t) == Some(DecodeQuantum(t[0], t[1], t[2], t[3]) + s[3..]);
      assert s == [s[0], s[1], s[2]] + s[3..];
    } else if |s| == 2 {
      Final2RoundTrip(s[0], s[1]);
      assert s == [s[0], s[1]];
    } else if |s| == 1 {
      Final1RoundTrip(s[0]);
      assert s == [s[0]];
    }
  }

  lemma Final2RoundTrip(b0: byte, b1: byte)
    ensures Decode(EncodeFinal2(b0, b1)) == Some([b0, b1])
  {
    var t := EncodeFinal2(b0, b1);
    var v0: int, v1: int, v2: int := b0 / 4, (b0 % 4) * 16 + b1 / 16, (b1 % 16) * 4;
    OctetsRoundTrip(b0, b1, 0);
    SymbolValue(v0);
    SymbolValue(v1);
    SymbolValue(v2);
    assert Value(t[0]) == v0 && Value(t[1]) == v1 && Value(t[2]) == v2;
    assert v2 % 4 == 0;
  }

  lemma Final1RoundTrip(b0: byte)
    ensures Decode(EncodeFinal1(b0)) == Some([b0])
  {
    var t := EncodeFinal1(b0);
    var v0: int, v1: int := b0 / 4, (b0 % 4) * 16;
    OctetsRoundTrip(b0, 0, 0);
    SymbolValue(v0);
    SymbolValue(v1);
    assert Value(t[0]) == v0 && Value(t[1]) == v1;
    assert v1 % 16 == 0;
  }

  /** Every text the decoder accepts is the encoding of what it decodes to. */
  lemma {:induction false} EncodeDecode(t: string)
    requires Decode(t).Some?
    ensures Encode(Decode(t).value) == t
    decreases |t|
  {
    if |t| == 0 {
    } else if |t| == 4 && t[2] == Pad && t[3] == Pad {
      Final1Text(t);
    } else if |t| == 4 && IsSymbol(t[2]) && t[3] == Pad {
      Final2Text(t);
    } else {
      EncodeDecode(t[4..]);
      QuantumText(t);
    }
  }

  lemma Four(t: string)
    requires |t| == 4
    ensures t == [t[0], t[1], t[2], t[3]]
  {
  }

  lemma Final1Text(t: string)
    requires Decode(t).Some? && |t| == 4 && t[2] == Pad && t[3] == Pad
    ensures Encode(Decode(t).value) == t
  {
    var d := Decode(t).value;
    assert d == [Value(t[0]) * 4 + Value(t[1]) / 16];
    Final1Canonical(t[0], t[1]);
    Four(t);
  }

  lemma Final2Text(t: string)
    requires Decode(t).Some? && |t| == 4 && IsSymbol(t[2]) && t[3] == Pad
    ensures Encode(Decode(t).value) == t
  {
    assert t[2] != Pad;
    var d := Decode(t).value;
    assert d == [Value(t[0]) * 4 + Value(t[1]) / 16, (Value(t[1]) % 16) * 16 + Value(t[2]) / 4];
    Final2Canonical(t[0], t[1], t[2]);
    Four(t);
  }

  /** A text is its first four characters followed by the rest. */
  lemma Regroup(t: string, e: string, x: string)
    requires |t| >= 4 && e == [t[0], t[1], t[2], t[3]] && x == t[4..]
    ensures e + x == t
  {
    assert t[..4] == e;
    assert t == t[..4] + t[4..];
  }

  lemma QuantumText(t: string)
    requires Decode(t).Some? && |t| >= 4
    requires !(|t| == 4 && t[2] == Pad && t[3] == Pad)
    requires !(|t| == 4 && IsSymbol(t[2]) && t[3] == Pad)
    requires Decode(t[4..]).Some? ==> Encode(Decode(t[4..]).value) == t[4..]
    ensures Encode(Decode(t).value) == t
  {
    assert IsSymbol(t[0]) && IsSymbol(t[1]) && IsSymbol(t[2]) && IsSymbol(t[3]);
    assert Decode(t[4..]).Some?;
    var rest := Decode(t[4..]).value;
    var q := DecodeQuantum(t[0], t[1], t[2], t[3]);
    var d := Decode(t).value;
    assert d == q + rest;
    var e := EncodeQuantum(q[0], q[1], q[2]);
    assert e == [t[0], t[1], t[2], t[3]] by {
      QuantumCanonical(t[0], t[1], t[2], t[3]);
    }
    assert Encode(d) == e + Encode(rest) by {
      EncodeCons(q[0], q[1], q[2], rest);
      assert [q[0], q[1], q[2]] + rest == d;
    }
    Regroup(t, e, Encode(rest));
  }

  /** A quantum whose digits are known. */
  lemma QuantumDigits(b0: byte, b1: byte, b2: byte, v0: sextet, v1: sextet, v2: sextet, v3: sextet)
    requires b0 / 4 == v0 && (b0 % 4) * 16 + b1 / 16 == v1
    requires (b1 % 16) * 4 + b2 / 64 == v2 && b2 % 64 == v3
    ensures EncodeQuantum(b0, b1, b2) == [Symbol(v0), Symbol(v1), Symbol(v2), Symbol(v3)]
  {
  }

  /** The bytes `b"fake_image_data"`. */
  const FakeImageData: Blob :=
    [102, 97, 107, 101, 95, 105, 109, 97, 103, 101, 95, 100, 97, 116, 97]

  /** Encoding a leading quantum. */
  lemma EncodeCons(b0: byte, b1: byte, b2: byte, rest: Blob)
    ensures Encode([b0, b1, b2] + rest) == EncodeQuantum(b0, b1, b2) + Encode(rest)
  {
    var s := [b0, b1, b2] + rest;
    assert s[0] == b0 && s[1] == b1 && s[2] == b2 && s[3..] == rest;
  }

  /**
    Encoding distributes over concatenation when the first part is a whole
    number of quanta: each group of three octets is encoded on its own.
   */
  lemma {:induction false} EncodeAppend(a: Blob, b: Blob)
    requires |a| % 3 == 0
    ensures Encode(a + b) == Encode(a) + Encode(b)
    decreases |a|
  {
    if |a| == 0 {
      assert a + b == b;
    } else {
      var head, tail := [a[0], a[1], a[2]], a[3..];
      var q := EncodeQuantum(a[0], a[1], a[2]);
      assert a == head + tail;
      assert a + b == head + (tail + b);
      calc {
        Encode(a + b);
        Encode(head + (tail + b));
        { EncodeCons(a[0], a[1], a[2], tail + b); }
        q + Encode(tail + b);
        { EncodeAppend(tail, b); }
        q + (Encode(tail) + Encode(b));
        (q + Encode(tail)) + Encode(b);
        { EncodeCons(a[0], a[1], a[2], tail); }
        Encode(head + tail) + Encode(b);
        Encode(a) + Encode(b);
      }
    }
  }

  /** One quantum whose four digits are known. */
  lemma EncodeOne(b0: byte, b1: byte, b2: byte, v0: sextet, v1: sextet, v2: sextet, v3: sextet)
    requires b0 / 4 == v0 && (b0 % 4) * 16 + b1 / 16 == v1
    requires (b1 % 16) * 4 + b2 / 64 == v2 && b2 % 64 == v3
    ensures Encode([b0, b1, b2]) == [Symbol(v0), Symbol(v1), Symbol(v2), Symbol(v3)]
  {
    QuantumDigits(b0, b1, b2, v0, v1, v2, v3);
    EncodeCons(b0, b1, b2, []);
    assert [b0, b1, b2] + [] == [b0, b1, b2];
  }

  /** The published vector: `b"fake_image_data"` encodes to `"ZmFrZV9pbWFnZV9kYXRh"`. */
  lemma FakeImageDataVector()
    ensures Encode(FakeImageData) == "ZmFrZV9pbWFnZV9kYXRh"
  {
    var q0: Blob, q1: Blob, q2: Blob, q3: Blob, q4: Blob :=
      [102, 97, 107], [101, 95, 105], [109, 97, 103], [101, 95, 100], [97, 116, 97];
    FakeImageDataQuanta();
    EncodeOne(102, 97, 107, 25, 38, 5, 43);
    EncodeOne(101, 95, 105, 25, 21, 61, 41);
    EncodeOne(109, 97, 103, 27, 22, 5, 39);
    EncodeOne(101, 95, 100, 25, 21, 61, 36);
    EncodeOne(97, 116, 97, 24, 23, 17, 33);
    assert Symbol(25) == 'Z' && Symbol(38) == 'm' && Symbol(5) == 'F' && Symbol(43) == 'r';
    assert Symbol(21) == 'V' && Symbol(61) == '9' && Symbol(41) == 'p';
    assert Symbol(27) == 'b' && Symbol(22) == 'W' && Symbol(39) == 'n';
    assert Symbol(36) == 'k';
    assert Symbol(24) == 'Y' && Symbol(23) == 'X' && Symbol(17) == 'R' && Symbol(33) == 'h';
    EncodeAppend(q3, q4);
    EncodeAppend(q2, q3 + q4);
    EncodeAppend(q1, q2 + (q3 + q4));
    EncodeAppend(q0, q1 + (q2 + (q3 + q4)));
    VectorText();
  }

  lemma FakeImageDataQuanta()
    ensures FakeImageData == [102, 97, 107] + ([101, 95, 105] + ([109, 97, 103] + ([101, 95, 100] + [97, 116, 97])))
  {
  }

  lemma VectorText()
    ensures "ZmFr" + ("ZV9p" + ("bWFn" + ("ZV9k" + "YXRh"))) == "ZmFrZV9pbWFnZV9kYXRh"
  {
  }
}

=== FILE: bootstrap.dfy ===
/**
  `init_comfyui`: the once-per-process engine setup behind the module-level
  `_initialized` flag.
 */
module Bootstrap {
  import opened Wrappers
  import opened Engine

  /**
    The process-wide bootstrap state: the `_initialized` flag, and how many
    times the directory setup and the node registration
    (`asyncio.run(_init_nodes())`) have been carried out. The counts stand
    for the side effects on `folder_paths` and on the node catalogue.
   */
  datatype Boot = Boot(initialized: bool, directorySetups: nat, registrations: nat)

  /** The state when the module has just been imported. */
  const Unloaded: Boot := Boot(false, 0, 0)

  /**
    What the surroundings of one call decide: whether setting the three
    directories raises, whether an asyncio event loop is already running in
    this thread, and whether node registration raises.
   */
  datatype InitEnv = InitEnv(directoriesRaise: Option<Exception>, loopRunning: bool, registrationRaises: Option<Exception>)

  /** The state after a call, and the exception it raised, if any. */
  datatype InitResult = InitResult(boot: Boot, raised: Option<Exception>)

  /**
    One call of `init_comfyui()`. Once the flag is set the call returns at
    once. Otherwise it sets the directories, then registers the nodes
    unless a loop is already running, and only then sets the flag; an
    exception on the way leaves the flag clear.
   */
  function InitComfyUI(b: Boot, env: InitEnv): (r: InitResult)
    ensures b.initialized ==> r == InitResult(b, None)
    ensures r.boot.initialized <==> b.initialized || r.raised.None?
    ensures r.raised.Some? ==> r.raised == env.directoriesRaise || r.raised == env.registrationRaises
    ensures r.raised.None? && !b.initialized ==> r.boot.directorySetups == b.directorySetups + 1
    ensures r.boot.registrations == b.registrations + (if !b.initialized && env.directoriesRaise.None? && !env.loopRunning then 1 else 0)
    ensures !b.initialized && env.directoriesRaise.Some? ==> r == InitResult(b, env.directoriesRaise)
    ensures !b.initialized && env.directoriesRaise.None? && !env.loopRunning && env.registrationRaises.Some? ==>
              r.raised == env.registrationRaises && !r.boot.initialized
    ensures !b.initialized && env.directoriesRaise.None? && env.loopRunning ==> r.raised.None?
  {
    if b.initialized then InitResult(b, None)
    else if env.directoriesRaise.Some? then InitResult(b, env.directoriesRaise)
    else
      var afterDirectories := b.(directorySetups := b.directorySetups + 1);
      if env.loopRunning then InitResult(afterDirectories.(initialized := true), None)
      else
        var afterRegistration := afterDirectories.(registrations := b.registrations + 1);
        if env.registrationRaises.Some? then InitResult(afterRegistration, env.registrationRaises)
        else InitResult(afterRegistration.(initialized := true), None)
  }

  /** The state after a sequence of calls, each in its own surroundings, whatever each raised. */
  function InitCalls(b: Boot, envs: seq<InitEnv>): Boot
    decreases |envs|
  {
    if |envs| == 0 then b else InitCalls(InitComfyUI(b, envs[0]).boot, envs[1..])
  }

  /** A second call after a successful one has no effect and raises nothing. */
  lemma InitIdempotent(b: Boot, first: InitEnv, second: InitEnv)
    requires InitComfyUI(b, first).raised.None?
    ensures var once := InitComfyUI(b, first).boot;
            InitComfyUI(once, second) == InitResult(once, None)
  {
  }

  /**
    Calling `init_comfyui()` any number of times after a successful call
    leaves the state of that call: no directory setup or registration is
    repeated.
   */
  lemma {:induction false} InitRepeated(b: Boot, first: InitEnv, later: seq<InitEnv>)
    requires InitComfyUI(b, first).raised.None?
    ensures InitCalls(b, [first] + later) == InitComfyUI(b, first).boot
  {
    var once := InitComfyUI(b, first).boot;
    assert ([first] + later)[1..] == later;
    StaysInitialized(once, later);
  }

  lemma {:induction false} StaysInitialized(b: Boot, envs: seq<InitEnv>)
    requires b.initialized
    ensures InitCalls(b, envs) == b
    decreases |envs|
  {
    if |envs| > 0 {
      StaysInitialized(b, envs[1..]);
    }
  }

  /**
    A call that raises leaves the flag clear, so the next call starts the
    setup again from the directories.
   */
  lemma RetryAfterFailure(b: Boot, first: InitEnv, second: InitEnv)
    requires InitComfyUI(b, first).raised.Some?
    ensures var failed := InitComfyUI(b, first).boot;
            && !failed.initialized
            && (second.directoriesRaise.None? ==> InitComfyUI(failed, second).boot.directorySetups == failed.directorySetups + 1)
  {
  }

  /**
    When a loop is already running the first successful call skips node
    registration yet sets the flag, so no later call ever registers the nodes.
   */
  lemma {:induction false} RegistrationSkippedForGood(b: Boot, first: InitEnv, later: seq<InitEnv>)
    requires !b.initialized && first.loopRunning && first.directoriesRaise.None?
    ensures InitComfyUI(b, first).raised.None?
    ensures InitCalls(b, [first] + later).registrations == b.registrations
    ensures InitCalls(b, [first] + later).initialized
  {
    InitRepeated(b, first, later);
  }

  /**
    In a freshly imported module, a first call that raises nothing and finds
    no running loop sets up the directories and registers the nodes exactly
    once, and no later call repeats either.
   */
  lemma {:induction false} FreshProcessSetsUpOnce(first: InitEnv, later: seq<InitEnv>)
    requires InitComfyUI(Unloaded, first).raised.None? && !first.loopRunning
    ensures var b := InitCalls(Unloaded, [first] + later);
            b.initialized && b.directorySetups == 1 && b.registrations == 1
  {
    InitRepeated(Unloaded, first, later);
  }
}

=== FILE: bytes.dfy ===
/** Octets and byte strings (Python `bytes`). */
module Bytes {

  /** One octet; also one 8-bit image channel (`numpy.uint8`). */
  type byte = x: int | 0 <= x < 256

  /** An immutable byte string, such as one encoded PNG image. */
  type Blob = seq<byte>
}

=== FILE: capture_table.dfy ===
/**
  The capture table `captured_outputs`: a Python dict from node id to the
  list of PNG byte strings captured for that node. A dict iterates in key
  insertion order, and that order later fixes the order of the response, so
  the table is an association list with distinct keys, oldest key first.
 */
module CaptureTable {
  import opened Wrappers
  import opened Bytes
  import opened Engine

  /** One key of the dict and the list it maps to. */
  datatype Entry = Entry(node: NodeId, blobs: seq<Blob>)

  type Table = seq<Entry>

  /** `{}` */
  const Empty: Table := []

  /** The keys in insertion order (`list(d.keys())`). */
  function Keys(t: Table): (r: seq<NodeId>)
    ensures |r| == |t|
    ensures forall i :: 0 <= i < |t| ==> r[i] == t[i].node
  {
    if |t| == 0 then [] else [t[0].node] + Keys(t[1..])
  }

  /** No key occurs twice: the association list is a dict. */
  predicate DistinctKeys(t: Table) {
    forall i, j :: 0 <= i < j < |t| ==> t[i].node != t[j].node
  }

  /** `d.get(k)`: the list stored under `k`, if `k` is a key. */
  function Find(t: Table, k: NodeId): (r: Option<seq<Blob>>)
    ensures r.Some? <==> k in Keys(t)
  {
    if |t| == 0 then None
    else if t[0].node == k then Some(t[0].blobs)
    else Find(t[1..], k)
  }

  /** In a dict, the entry at position `i` is what its key looks up. */
  lemma {:induction false} FindAt(t: Table, i: nat)
    requires DistinctKeys(t) && i < |t|
    ensures Find(t, t[i].node) == Some(t[i].blobs)
  {
    if i > 0 {
      assert t[0].node != t[i].node;
      assert t[1..][i - 1] == t[i];
      FindAt(t[1..], i - 1);
    }
  }

  /** Looking up in a table extended at the end by one entry. */
  lemma {:induction false} FindSnoc(t: Table, e: Entry, k: NodeId)
    ensures Find(t + [e], k) == if Find(t, k).Some? then Find(t, k) else if e.node == k then Some(e.blobs) else None
  {
    if |t| > 0 {
      assert (t + [e])[1..] == t[1..] + [e];
      FindSnoc(t[1..], e, k);
    }
  }

  /**
    `if k not in d: d[k] = []`: afterwards `k` is a key (a new, last one
    holding the empty list if it was absent) and nothing else changed.
   */
  function EnsureKey(t: Table, k: NodeId): (r: Table)
    ensures Find(r, k) == Some(Find(t, k).GetOr([]))
    ensures forall k' :: k' != k ==> Find(r, k') == Find(t, k')
    ensures Keys(r) == Keys(t) + (if k in Keys(t) then [] else [k])
    ensures DistinctKeys(t) ==> DistinctKeys(r)
  {
    if Find(t, k).Some? then t
    else
      var r := t + [Entry(k, [])];
      FindSnoc(t, Entry(k, []), k);
      forall k' | k' != k
        ensures Find(r, k') == Find(t, k')
      {
        FindSnoc(t, Entry(k, []), k');
      }
      r
  }

  /**
    `d[k].append(b)` for a present key `k`: `k`'s list grows by `b` at its
    end; every other key, its list, and the key order are unchanged.
   */
  function Append(t: Table, k: NodeId, b: Blob): (r: Table)
    requires k in Keys(t)
    ensures Find(r, k) == Some(Find(t, k).value + [b])
    ensures forall k' :: k' != k ==> Find(r, k') == Find(t, k')
    ensures |r| == |t| && forall i :: 0 <= i < |t| ==> r[i].node == t[i].node
    ensures Keys(r) == Keys(t)
  {
    if t[0].node == k then [t[0].(blobs := t[0].blobs + [b])] + t[1..]
    else
      var r := [t[0]] + Append(t[1..], k, b);
      assert r[1..] == Append(t[1..], k, b);
      r
  }
}

=== FILE: engine.dfy ===
/**
  The image engine (ComfyUI) is not modelled as code. A run is the trace of
  what the engine does to the adapter: the progress messages it sends to the
  sink, the calls it makes to an output node's `save_images` hook, and
  whether it finally returns or raises.
 */
module Engine {
  import opened Wrappers

  /** A node of the workflow graph is named by a string key. */
  type NodeId = string

  /** Which output node class the engine calls `save_images` on. */
  datatype OutputClass = SaveImage | PreviewImage

  /**
    One image of a batch (one `B` slice of the `B, H, W, C` tensor): its
    channel values in the engine's normalised range, flattened in row order.
   */
  datatype Image = Image(values: seq<real>)

  /**
    A Python exception escaping the engine or the bootstrap. `ValueError`
    stands for `ValueError` and its subclasses; every other `Exception`
    subclass is an `OtherError`. The message is `str(e)`.
   */
  datatype Exception = ValueError(message: string) | OtherError(message: string)

  /** One thing the engine does to the adapter during a run. */
  datatype Event =
    | Send(event: string, node: Option<NodeId>)          // `server.send_sync(event, data)`, `node` is `data.get("node")`
    | QueueUpdated                                        // `server.queue_updated()`
    | SaveCall(target: OutputClass, batch: seq<Image>)    // `<target>.save_images(self, images, ...)`

  /** How `PromptExecutor.execute` ends: it returns, or it raises. */
  datatype Ending = Completed | Raise(error: Exception)

  /**
    Everything the engine does in one run: whether constructing its
    executor (`execution.PromptExecutor(server)`) raises, which happens
    before any hook is patched; otherwise the events, in order, and how the
    run ends.
   */
  datatype Trace = Trace(setupRaises: Option<Exception>, events: seq<Event>, ending: Ending)

  /** The progress event kind that names the node now executing. */
  const ExecutingEvent: string := "executing"

  predicate IsExecuting(ev: Event) {
    ev.Send? && ev.event == ExecutingEvent
  }
}

=== FILE: gateway.dfy ===
/**
  The `/generate` endpoint: it runs `execute_workflow` and turns its result
  into the response body, one image entry per captured PNG, each carrying
  its node id and the standard base64 text of its bytes; an exception
  becomes an HTTP error whose status depends on its class.
 */
module Gateway {
  import opened Wrappers
  import opened Bytes
  import opened Engine
  import opened CaptureTable
  import opened Base64
  import opened Bootstrap
  import opened Worker

  /**
    The detail of the error raised when `import worker_logic` failed with an
    `ImportError`; any other exception from that import stops the app from
    loading at all.
   */
  const NotLoadedDetail: string := "Worker logic module not loaded."

  /** What the detail of a 500 puts before the exception's text. */
  const FailurePrefix: string := "Execution failed: "

  /** `ImageResponse(node_id=..., data=...)` */
  datatype ImageResponse = ImageResponse(nodeId: string, data: string)

  /** `GenerateResponse(images=...)` with status 200, or an `HTTPException`. */
  datatype Response = Ok(images: seq<ImageResponse>) | HttpError(status: int, detail: string)

  /** The endpoint's response and the process state it leaves behind. */
  datatype Reply = Reply(response: Response, process: Process)

  /** The response entries of one key of the table: one per image, in list order. */
  function EntryImages(e: Entry): (r: seq<ImageResponse>)
    ensures |r| == |e.blobs|
    ensures forall i :: 0 <= i < |r| ==> r[i] == ImageResponse(e.node, Encode(e.blobs[i]))
  {
    seq(|e.blobs|, i requires 0 <= i < |e.blobs| => ImageResponse(e.node, Encode(e.blobs[i])))
  }

  /** The number of images held by the table. */
  function TotalBlobs(t: Table): nat
    decreases |t|
  {
    if |t| == 0 then 0 else |t[0].blobs| + TotalBlobs(t[1..])
  }

  /**
    The two nested loops over `outputs.items()` and each image list: keys in
    insertion order, images in list order. A key with an empty list
    contributes nothing.
   */
  function Flatten(t: Table): (r: seq<ImageResponse>)
    ensures |r| == TotalBlobs(t)
    ensures forall i :: 0 <= i < |r| ==> r[i].nodeId in Keys(t)
    decreases |t|
  {
    if |t| == 0 then []
    else
      var head := EntryImages(t[0]);
      var rest := Flatten(t[1..]);
      assert forall i :: 0 <= i < |rest| ==> rest[i].nodeId in Keys(t) by {
        assert forall k :: k in Keys(t[1..]) ==> k in Keys(t) by {
          assert Keys(t) == [t[0].node] + Keys(t[1..]);
        }
      }
      head + rest
  }

  /** The response for two tables one after the other is the two responses one after the other. */
  lemma {:induction false} FlattenAppend(a: Table, b: Table)
    ensures Flatten(a + b) == Flatten(a) + Flatten(b)
    decreases |a|
  {
    if |a| == 0 {
      assert a + b == b;
    } else {
      assert (a + b)[0] == a[0];
      assert (a + b)[1..] == a[1..] + b;
      FlattenAppend(a[1..], b);
    }
  }

  /**
    The `except` clauses: a `ValueError` is the client's fault (400, its text
    verbatim); anything else is a server failure (500, its text after the
    prefix).
   */
  function ErrorResponse(e: Exception): (r: Response)
    ensures r.HttpError?
    ensures r.status == 400 <==> e.ValueError?
    ensures r.status == 500 <==> e.OtherError?
    ensures e.ValueError? ==> r.detail == e.message
    ensures e.OtherError? ==> r.detail == FailurePrefix + e.message
  {
    match e
    case ValueError(m) => HttpError(400, m)
    case OtherError(m) => HttpError(500, FailurePrefix + m)
  }

  /** Every error detail ends with the exception's own text, so a client can read it. */
  lemma ErrorDetailEndsWithMessage(e: Exception)
    ensures var d := ErrorResponse(e).detail;
            |e.message| <= |d| && d[|d| - |e.message|..] == e.message
  {
    var d := ErrorResponse(e).detail;
    if e.OtherError? {
      assert d == FailurePrefix + e.message;
      assert d[|FailurePrefix|..] == e.message;
    }
  }

  /** The body of the `try` once `execute_workflow` has returned or raised. */
  function Respond(result: Result<Table, Exception>): (r: Response)
    ensures r.Ok? <==> result.Success?
    ensures result.Success? ==> r.images == Flatten(result.value)
    ensures result.Failure? ==> r == ErrorResponse(result.error)
  {
    match result
    case Success(t) => Ok(Flatten(t))
    case Failure(e) => ErrorResponse(e)
  }

  /**
    `generate(request)`. When `import worker_logic` raised an `ImportError`
    (`loaded` false) it answers 500 and runs nothing; otherwise it runs the
    workflow and answers from its result.
   */
  function Generate(loaded: bool, p: Process, env: InitEnv, trace: Trace, png: PngEncoder): (r: Reply)
    ensures !loaded ==> r == Reply(HttpError(500, NotLoadedDetail), p)
    ensures loaded ==> r.process == ExecuteWorkflow(p, env, trace, png).process
    ensures loaded ==> r.response == Respond(ExecuteWorkflow(p, env, trace, png).result)
    ensures r.response.Ok? <==> loaded && InitComfyUI(p.boot, env).raised.None? && trace.setupRaises.None? && trace.ending.Completed?
    ensures r.response.HttpError? ==> r.response.status == 400 || r.response.status == 500
  {
    if !loaded then Reply(HttpError(500, NotLoadedDetail), p)
    else
      var o := ExecuteWorkflow(p, env, trace, png);
      Reply(Respond(o.result), o.process)
  }

  // Reading the response back.

  /** The `data` fields of the entries for node `k`, in response order. */
  function DataFor(rs: seq<ImageResponse>, k: string): seq<string>
    decreases |rs|
  {
    if |rs| == 0 then []
    else (if rs[0].nodeId == k then [rs[0].data] else []) + DataFor(rs[1..], k)
  }

  /** Decodes every text of `ds`, failing if any one is not canonical base64. */
  function DecodeAll(ds: seq<string>): (r: Option<seq<Blob>>)
    ensures r.Some? ==> |r.value| == |ds| && forall i :: 0 <= i < |ds| ==> Decode(ds[i]) == Some(r.value[i])
    decreases |ds|
  {
    if |ds| == 0 then Some([])
    else
      match Decode(ds[0])
      case None => None
      case Some(b) =>
        match DecodeAll(ds[1..])
        case None => None
        case Some(bs) => Some([b] + bs)
  }

  /** The base64 texts of a list of byte strings, in order. */
  function EncodeAll(bs: seq<Blob>): (r: seq<string>)
    ensures |r| == |bs| && forall i :: 0 <= i < |bs| ==> r[i] == Encode(bs[i])
  {
    seq(|bs|, i requires 0 <= i < |bs| => Encode(bs[i]))
  }

  /** Decoding the encodings gives the byte strings back. */
  lemma {:induction false} DecodeAllEncodeAll(bs: seq<Blob>)
    ensures DecodeAll(EncodeAll(bs)) == Some(bs)
    decreases |bs|
  {
    if |bs| > 0 {
      DecodeEncode(bs[0]);
      assert EncodeAll(bs)[1..] == EncodeAll(bs[1..]);
      DecodeAllEncodeAll(bs[1..]);
      assert [bs[0]] + bs[1..] == bs;
    }
  }

  lemma {:induction false} DataForAppend(a: seq<ImageResponse>, b: seq<ImageResponse>, k: string)
    ensures DataFor(a + b, k) == DataFor(a, k) + DataFor(b, k)
    decreases |a|
  {
    if |a| == 0 {
      assert a + b == b;
    } else {
      assert (a + b)[0] == a[0];
      assert (a + b)[1..] == a[1..] + b;
      DataForAppend(a[1..], b, k);
    }
  }

  lemma {:induction false} DataForEntry(e: Entry, k: string)
    ensures DataFor(EntryImages(e), k) == if e.node == k then EncodeAll(e.blobs) else []
    decreases |e.blobs|
  {
    if |e.blobs| > 0 {
      var rest := Entry(e.node, e.blobs[1..]);
      assert EntryImages(e)[1..] == EntryImages(rest);
      DataForEntry(rest, k);
      if e.node == k {
        assert EncodeAll(e.blobs) == [Encode(e.blobs[0])] + EncodeAll(e.blobs[1..]);
      }
    }
  }

  /** In a dict, the texts for `k` are the encodings of `k`'s list (none if `k` is absent). */
  lemma {:induction false} DataForFlatten(t: Table, k: string)
    requires DistinctKeys(t)
    ensures DataFor(Flatten(t), k) == EncodeAll(Find(t, k).GetOr([]))
    decreases |t|
  {
    if |t| > 0 {
      var head := EntryImages(t[0]);
      assert Flatten(t) == head + Flatten(t[1..]);
      DataForAppend(head, Flatten(t[1..]), k);
      DataForEntry(t[0], k);
      assert DistinctKeys(t[1..]) by {
        forall i, j | 0 <= i < j < |t[1..]|
          ensures t[1..][i].node != t[1..][j].node
        {
          assert t[1..][i] == t[i + 1] && t[1..][j] == t[j + 1];
        }
      }
      DataForFlatten(t[1..], k);
      if t[0].node == k {
        assert k !in Keys(t[1..]) by {
          forall i | 0 <= i < |t[1..]|
            ensures Keys(t[1..])[i] != k
          {
            assert t[1..][i] == t[i + 1];
          }
        }
        assert DataFor(Flatten(t[1..]), k) == [];
        assert EncodeAll(t[0].blobs) + [] == EncodeAll(t[0].blobs);
      } else {
        assert [] + DataFor(Flatten(t[1..]), k) == DataFor(Flatten(t[1..]), k);
      }
    }
  }

  /**
    The response loses nothing and mixes nothing up: decoding the texts
    filed under `k` gives back exactly `k`'s list of PNG byte strings.
   */
  lemma FlattenRecovers(t: Table, k: string)
    requires DistinctKeys(t)
    ensures DecodeAll(DataFor(Flatten(t), k)) == Some(Find(t, k).GetOr([]))
  {
    DataForFlatten(t, k);
    DecodeAllEncodeAll(Find(t, k).GetOr([]));
  }

  /**
    End to end: a 200 from `/generate` carries, under each node id, exactly
    the images the engine saved while that node was executing, in the order
    it saved them.
   */
  lemma GenerateCaptures(loaded: bool, p: Process, env: InitEnv, trace: Trace, png: PngEncoder, n: NodeId)
    requires Generate(loaded, p, env, trace, png).response.Ok?
    ensures DecodeAll(DataFor(Generate(loaded, p, env, trace, png).response.images, n))
            == Some(CapturedFor(trace.events, Patched, png, n))
  {
    var t := ExecuteWorkflow(p, env, trace, png).result.value;
    assert t == Replay(trace.events, Patched, png).table;
    FlattenRecovers(t, n);
    ReplayFind(trace.events, Patched, png, n);
    if !SomeAttributedSave(trace.events, Patched, n) {
      NoneCapturedEmpty(trace.events, Patched, png, n);
    }
  }

  // The endpoint's documented behaviour with `execute_workflow` replaced by a stub.

  /** A stub returning `{"9": [b"fake_image_data"]}` yields one entry for node "9" with its base64 text. */
  lemma SuccessScenario()
    ensures Respond(Success([Entry("9", [FakeImageData])]))
            == Ok([ImageResponse("9", "ZmFrZV9pbWFnZV9kYXRh")])
  {
    FakeImageDataVector();
    assert EntryImages(Entry("9", [FakeImageData])) == [ImageResponse("9", "ZmFrZV9pbWFnZV9kYXRh")];
    assert Flatten([Entry("9", [FakeImageData])]) == EntryImages(Entry("9", [FakeImageData])) + Flatten([]);
  }

  /** A stub raising `ValueError("Invalid node connection")` yields a 400 with that text. */
  lemma ValidationErrorScenario()
    ensures Respond(Failure(ValueError("Invalid node connection"))) == HttpError(400, "Invalid node connection")
  {
  }

  /** A stub raising `RuntimeError("OOM Error")` yields a 500 with the prefixed text. */
  lemma ServerErrorScenario()
    ensures Respond(Failure(OtherError("OOM Error"))) == HttpError(500, "Execution failed: OOM Error")
  {
  }
}

=== FILE: pixels.dfy ===
/** Denormalising one image to 8-bit channels before PNG encoding. */
module Pixels {
  import opened Bytes
  import opened Engine

  /**
    `np.clip(255. * v, 0, 255).astype(np.uint8)` for one channel value:
    scaled, clamped to 0..255, then truncated toward zero (which, after the
    clamp, is the floor). No value wraps around.
   */
  function ToChannel(v: real): (r: byte)
    ensures v <= 0.0 ==> r == 0
    ensures v >= 1.0 ==> r == 255
    ensures 0.0 <= v <= 1.0 ==> r as real <= 255.0 * v < r as real + 1.0
  {
    var x := 255.0 * v;
    if x <= 0.0 then 0
    else if x >= 255.0 then 255
    else x.Floor
  }

  /** Brighter inputs never give darker channels. */
  lemma ToChannelMonotonic(v: real, w: real)
    requires v <= w
    ensures ToChannel(v) <= ToChannel(w)
  {
  }

  /** The 8-bit pixels of one image, channel by channel. */
  function ToPixels(img: Image): (r: seq<byte>)
    ensures |r| == |img.values|
    ensures forall i :: 0 <= i < |r| ==> r[i] == ToChannel(img.values[i])
  {
    seq(|img.values|, i requires 0 <= i < |img.values| => ToChannel(img.values[i]))
  }
}

=== FILE: progress.dfy ===
/** The progress sink handed to the engine (`DummyServer`). */
module Progress {
  import opened Wrappers
  import opened Engine

  /**
    The part of a `DummyServer` the adapter reads: the node the engine last
    announced as executing. `client_id`, `last_node_id` and `last_prompt_id`
    are written once by the constructor and not read by the adapter, so they are not kept.
   */
  datatype Sink = Sink(current: Option<NodeId>)

  /** A freshly constructed sink: no node announced yet. */
  const Fresh: Sink := Sink(None)

  /**
    `send_sync(event, data)`: an `"executing"` event sets the current node
    to the payload's `node` (None when the key is missing or null); any
    other event leaves the sink as it was.
   */
  function SendSync(s: Sink, event: string, node: Option<NodeId>): (r: Sink)
    ensures event == ExecutingEvent ==> r.current == node
    ensures event != ExecutingEvent ==> r == s
  {
    if event == ExecutingEvent then s.(current := node) else s
  }

  /** `queue_updated()` does nothing. */
  function QueueUpdated(s: Sink): (r: Sink)
    ensures r.current == s.current
  {
    s
  }
}

=== FILE: worker.dfy ===
/**
  `execute_workflow` and the `capture_save_images` hook it installs: one run
  of the engine, seen as a fold of the capture adapter over the engine's
  trace, between installing the hook and restoring the original one.
 */
module Worker {
  import opened Wrappers
  import opened Bytes
  import opened Engine
  import opened Pixels
  import Progress
  import opened CaptureTable
  import opened Bootstrap

  /** PIL's PNG encoder (`Image.fromarray(px).save(buf, format="PNG")`), deterministic. */
  type PngEncoder = seq<byte> -> Blob

  /** One entry of the acknowledgement the hook hands back to the engine. */
  datatype Ack = Ack(filename: string, subfolder: string, kind: string)

  /** `{"filename": "captured.png", "subfolder": "", "type": "output"}` */
  const CapturedAck: Ack := Ack("captured.png", "", "output")

  /** `{"ui": {"images": images}}` */
  datatype UiResult = UiResult(images: seq<Ack>)

  /** What one hook call leaves behind: the capture table, and what it returns to the engine. */
  datatype HookResult = HookResult(table: Table, ui: UiResult)

  /** The PNG encodings of a batch, image by image. */
  function Encodings(batch: seq<Image>, png: PngEncoder): (r: seq<Blob>)
    ensures |r| == |batch|
    ensures forall i :: 0 <= i < |batch| ==> r[i] == png(ToPixels(batch[i]))
    decreases |batch|
  {
    if |batch| == 0 then [] else [png(ToPixels(batch[0]))] + Encodings(batch[1..], png)
  }

  /**
    The appends of `capture_save_images`'s loop for a known node `k`: each
    image of the batch is encoded and appended to `k`'s list, in batch
    order; no other key, list or position changes.
   */
  function StoreAll(t: Table, k: NodeId, batch: seq<Image>, png: PngEncoder): (r: Table)
    requires k in Keys(t)
    ensures Find(r, k) == Some(Find(t, k).value + Encodings(batch, png))
    ensures forall k' :: k' != k ==> Find(r, k') == Find(t, k')
    ensures Keys(r) == Keys(t)
    decreases |batch|
  {
    if |batch| == 0 then
      assert Find(t, k).value + Encodings(batch, png) == Find(t, k).value;
      t
    else
      var blob := png(ToPixels(batch[0]));
      var r := StoreAll(Append(t, k, blob), k, batch[1..], png);
      ConsAssoc(Find(t, k).value, blob, Encodings(batch[1..], png));
      r
  }

  /** Appending one element, regrouped. */
  lemma ConsAssoc(a: seq<Blob>, b: Blob, c: seq<Blob>)
    ensures a + ([b] + c) == (a + [b]) + c
  {
  }

  /** The acknowledgements of `capture_save_images`'s loop: one per image. */
  function Acks(batch: seq<Image>): (r: seq<Ack>)
    ensures |r| == |batch| && forall i :: 0 <= i < |r| ==> r[i] == CapturedAck
  {
    seq(|batch|, _ => CapturedAck)
  }

  /** Equal key sequences make equal distinctness. */
  lemma SameKeysDistinct(t: Table, u: Table)
    requires Keys(t) == Keys(u)
    ensures DistinctKeys(t) == DistinctKeys(u)
  {
    assert |t| == |u|;
    assert forall i :: 0 <= i < |t| ==> t[i].node == Keys(t)[i] == u[i].node;
  }

  /**
    `capture_save_images(self, images, ...)` with `node` the sink's current
    node. With a node, its list is created if absent (even for an empty
    batch) and grows by the batch's encodings in order, and nothing else
    changes; without one the table is left as it was. Either way the engine
    gets one acknowledgement per image.
   */
  function CaptureSaveImages(node: Option<NodeId>, t: Table, batch: seq<Image>, png: PngEncoder): (r: HookResult)
    ensures node.None? ==> r.table == t
    ensures node.Some? ==> Find(r.table, node.value) == Some(Find(t, node.value).GetOr([]) + Encodings(batch, png))
    ensures node.Some? ==> forall k :: k != node.value ==> Find(r.table, k) == Find(t, k)
    ensures node.Some? ==> Keys(r.table) == Keys(t) + (if node.value in Keys(t) then [] else [node.value])
    ensures DistinctKeys(t) ==> DistinctKeys(r.table)
    ensures |r.ui.images| == |batch| && forall i :: 0 <= i < |batch| ==> r.ui.images[i] == CapturedAck
  {
    match node
    case None => HookResult(t, UiResult(Acks(batch)))
    case Some(k) =>
      var t' := EnsureKey(t, k);
      var r := StoreAll(t', k, batch, png);
      SameKeysDistinct(t', r);
      HookResult(r, UiResult(Acks(batch)))
  }

  /** A hook slot: the original `save_images`, or the capturing one of the current run. */
  datatype Hook = Original(id: nat) | Capturing

  /** The class attributes `SaveImage.save_images` and `PreviewImage.save_images`. */
  datatype Slots = Slots(saveImage: Hook, previewImage: Hook)

  function HookOf(slots: Slots, target: OutputClass): Hook {
    match target
    case SaveImage => slots.saveImage
    case PreviewImage => slots.previewImage
  }

  /** Both slots patched, as during a run. */
  const Patched: Slots := Slots(Capturing, Capturing)

  /** The adapter's state during a run: the run's sink and its capture table. */
  datatype RunState = RunState(sink: Progress.Sink, table: Table)

  /** A fresh sink and an empty table, created anew by every run. */
  const Start: RunState := RunState(Progress.Fresh, Empty)

  /**
    The adapter's reaction to one engine event. A save call reaches the
    capture hook only through a patched slot; an original hook writes to
    disk, which this model does not follow, and leaves the table alone.
   */
  function Step(st: RunState, ev: Event, slots: Slots, png: PngEncoder): RunState {
    match ev
    case Send(event, node) => st.(sink := Progress.SendSync(st.sink, event, node))
    case QueueUpdated => st.(sink := Progress.QueueUpdated(st.sink))
    case SaveCall(target, batch) =>
      if HookOf(slots, target) == Capturing
      then st.(table := CaptureSaveImages(st.sink.current, st.table, batch, png).table)
      else st
  }

  /** The adapter's state after the engine has produced `evs`, starting from `Start`. */
  function Replay(evs: seq<Event>, slots: Slots, png: PngEncoder): RunState
    decreases |evs|
  {
    if |evs| == 0 then Start
    else Step(Replay(evs[..|evs| - 1], slots, png), evs[|evs| - 1], slots, png)
  }

  // Reference semantics of a run, stated over the trace alone.

  /** The node announced by the last `"executing"` event of `evs`, if any. */
  function Attribution(evs: seq<Event>): Option<NodeId>
    decreases |evs|
  {
    if |evs| == 0 then None
    else if IsExecuting(evs[|evs| - 1]) then evs[|evs| - 1].node
    else Attribution(evs[..|evs| - 1])
  }

  /** Event `i` is a save call that reaches the capture hook while `n` is the announced node. */
  predicate AttributedSave(evs: seq<Event>, i: int, slots: Slots, n: NodeId)
    requires 0 <= i < |evs|
  {
    evs[i].SaveCall? && HookOf(slots, evs[i].target) == Capturing && Attribution(evs[..i]) == Some(n)
  }

  /** All images attributed to `n`, in the order the engine produced them. */
  function CapturedFor(evs: seq<Event>, slots: Slots, png: PngEncoder, n: NodeId): seq<Blob>
    decreases |evs|
  {
    if |evs| == 0 then []
    else
      var i := |evs| - 1;
      CapturedFor(evs[..i], slots, png, n) + (if AttributedSave(evs, i, slots, n) then Encodings(evs[i].batch, png) else [])
  }

  /** `Attribution` is the node of the last `"executing"` event. */
  lemma {:induction false} AttributionIsLastExecuting(evs: seq<Event>, i: int)
    requires 0 <= i < |evs| && IsExecuting(evs[i])
    requires forall j :: i < j < |evs| ==> !IsExecuting(evs[j])
    ensures Attribution(evs) == evs[i].node
    decreases |evs|
  {
    var last := |evs| - 1;
    if i < last {
      var pre := evs[..last];
      assert pre[i] == evs[i];
      forall j | i < j < |pre|
        ensures !IsExecuting(pre[j])
      {
        assert pre[j] == evs[j];
      }
      AttributionIsLastExecuting(pre, i);
    }
  }

  /** With no `"executing"` event at all there is no attribution. */
  lemma {:induction false} AttributionWithoutExecuting(evs: seq<Event>)
    requires forall j :: 0 <= j < |evs| ==> !IsExecuting(evs[j])
    ensures Attribution(evs) == None
    decreases |evs|
  {
    if |evs| > 0 {
      var pre := evs[..|evs| - 1];
      forall j | 0 <= j < |pre|
        ensures !IsExecuting(pre[j])
      {
        assert pre[j] == evs[j];
      }
      AttributionWithoutExecuting(pre);
    }
  }

  /** The sink always holds the attribution of the events so far. */
  lemma {:induction false} ReplaySink(evs: seq<Event>, slots: Slots, png: PngEncoder)
    ensures Replay(evs, slots, png).sink.current == Attribution(evs)
    decreases |evs|
  {
    if |evs| > 0 {
      ReplaySink(evs[..|evs| - 1], slots, png);
    }
  }

  /** The capture table stays a dict through a run. */
  lemma {:induction false} ReplayDistinct(evs: seq<Event>, slots: Slots, png: PngEncoder)
    ensures DistinctKeys(Replay(evs, slots, png).table)
    decreases |evs|
  {
    if |evs| > 0 {
      ReplayDistinct(evs[..|evs| - 1], slots, png);
    }
  }

  /** The prefix `evs[..i]` of `evs[..k]` is `evs[..i]`. */
  lemma PrefixOfPrefix(evs: seq<Event>, k: int, i: int)
    requires 0 <= i <= k <= |evs|
    ensures evs[..k][..i] == evs[..i]
  {
  }

  /** The save call `ev` reaches the capture hook while `n` is the sink's node. */
  predicate CapturesFor(st: RunState, ev: Event, slots: Slots, n: NodeId) {
    ev.SaveCall? && HookOf(slots, ev.target) == Capturing && st.sink.current == Some(n)
  }

  /** One step, seen from one node `n`: its list is created or extended only by a save call captured for it. */
  lemma StepFind(st: RunState, ev: Event, slots: Slots, png: PngEncoder, n: NodeId)
    ensures Find(Step(st, ev, slots, png).table, n)
            == if CapturesFor(st, ev, slots, n) then Some(Find(st.table, n).GetOr([]) + Encodings(ev.batch, png))
               else Find(st.table, n)
  {
  }

  /** Some save call of `evs` was captured for `n`. */
  predicate SomeAttributedSave(evs: seq<Event>, slots: Slots, n: NodeId) {
    exists i :: 0 <= i < |evs| && AttributedSave(evs, i, slots, n)
  }

  /** A save call of `evs` attributed to `n` is one of its prefix or its last event. */
  lemma AttributedSplit(evs: seq<Event>, slots: Slots, n: NodeId)
    requires |evs| > 0
    ensures SomeAttributedSave(evs, slots, n)
            <==> SomeAttributedSave(evs[..|evs| - 1], slots, n) || AttributedSave(evs, |evs| - 1, slots, n)
  {
    var last := |evs| - 1;
    var pre := evs[..last];
    forall i | 0 <= i < last
      ensures AttributedSave(evs, i, slots, n) == AttributedSave(pre, i, slots, n)
    {
      PrefixOfPrefix(evs, last, i);
    }
  }

  /** With no save call attributed to `n`, nothing is captured for it. */
  lemma {:induction false} NoneCapturedEmpty(evs: seq<Event>, slots: Slots, png: PngEncoder, n: NodeId)
    requires !SomeAttributedSave(evs, slots, n)
    ensures CapturedFor(evs, slots, png, n) == []
    decreases |evs|
  {
    if |evs| > 0 {
      AttributedSplit(evs, slots, n);
      NoneCapturedEmpty(evs[..|evs| - 1], slots, png, n);
    }
  }

  /**
    The list of a node after the run: present exactly when some save call
    reached the hook while it was the announced node (even with an empty
    batch), and then everything attributed to it, in production order.
   */
  lemma {:induction false} ReplayFind(evs: seq<Event>, slots: Slots, png: PngEncoder, n: NodeId)
    ensures Find(Replay(evs, slots, png).table, n)
            == if SomeAttributedSave(evs, slots, n) then Some(CapturedFor(evs, slots, png, n)) else None
    decreases |evs|
  {
    if |evs| > 0 {
      var last := |evs| - 1;
      var pre := evs[..last];
      ReplayFind(pre, slots, png, n);
      ReplaySink(pre, slots, png);
      AttributedSplit(evs, slots, n);
      StepFind(Replay(pre, slots, png), evs[last], slots, png, n);
      assert CapturesFor(Replay(pre, slots, png), evs[last], slots, n) == AttributedSave(evs, last, slots, n);
      assert Replay(evs, slots, png) == Step(Replay(pre, slots, png), evs[last], slots, png);
      assert CapturedFor(evs, slots, png, n) == CapturedFor(pre, slots, png, n)
             + (if AttributedSave(evs, last, slots, n) then Encodings(evs[last].batch, png) else []);
      if !AttributedSave(evs, last, slots, n) {
        assert CapturedFor(evs, slots, png, n) == CapturedFor(pre, slots, png, n);
      } else if !SomeAttributedSave(pre, slots, n) {
        assert CapturedFor(pre, slots, png, n) == [] by { NoneCapturedEmpty(pre, slots, png, n); }
      }
    }
  }

  /**
    A node is a key of the final table exactly when some save call reached
    the hook while it was the announced node (even with an empty batch),
    and then its list is everything attributed to it, in production order.
    Nothing is lost, nothing is attributed to another node.
   */
  lemma ReplayCaptures(evs: seq<Event>, slots: Slots, png: PngEncoder, n: NodeId)
    ensures var t := Replay(evs, slots, png).table;
            && (n in Keys(t) <==> exists i :: 0 <= i < |evs| && AttributedSave(evs, i, slots, n))
            && (n in Keys(t) ==> Find(t, n) == Some(CapturedFor(evs, slots, png, n)))
  {
    ReplayFind(evs, slots, png, n);
  }

  /** Images saved while no node has been announced are dropped: with no `"executing"` event the table stays empty. */
  lemma UnattributedDropped(evs: seq<Event>, slots: Slots, png: PngEncoder)
    requires forall j :: 0 <= j < |evs| ==> !IsExecuting(evs[j])
    ensures Replay(evs, slots, png).table == Empty
  {
    var t := Replay(evs, slots, png).table;
    if |t| > 0 {
      var n := t[0].node;
      ReplayCaptures(evs, slots, png, n);
      var i :| 0 <= i < |evs| && AttributedSave(evs, i, slots, n);
      forall j | 0 <= j < i
        ensures !IsExecuting(evs[..i][j])
      {
        assert evs[..i][j] == evs[j];
      }
      AttributionWithoutExecuting(evs[..i]);
      assert false;
    }
  }

  /**
    A save made before the first `"executing"` event is attributed to no
    node, whatever later events announce: the hook drops its images.
   */
  lemma EarlySaveDropped(evs: seq<Event>, i: int, slots: Slots, n: NodeId)
    requires 0 <= i < |evs|
    requires forall j :: 0 <= j < i ==> !IsExecuting(evs[j])
    ensures Attribution(evs[..i]) == None
    ensures !AttributedSave(evs, i, slots, n)
  {
    forall j | 0 <= j < |evs[..i]|
      ensures !IsExecuting(evs[..i][j])
    {
      assert evs[..i][j] == evs[j];
    }
    AttributionWithoutExecuting(evs[..i]);
  }

  /**
    The table only grows during a run: the keys after a prefix of the
    trace are a prefix of the final keys, so keys keep the order in which
    they were first captured.
   */
  lemma {:induction false} ReplayKeysGrow(evs: seq<Event>, k: int, slots: Slots, png: PngEncoder)
    requires 0 <= k <= |evs|
    ensures Keys(Replay(evs[..k], slots, png).table) <= Keys(Replay(evs, slots, png).table)
    decreases |evs| - k
  {
    if k < |evs| {
      ReplayKeysGrow(evs, k + 1, slots, png);
      var pre := evs[..k + 1];
      assert pre[..k] == evs[..k];
      var before := Replay(evs[..k], slots, png);
      var after := Replay(pre, slots, png);
      assert after == Step(before, evs[k], slots, png);
      assert Keys(before.table) <= Keys(after.table);
    } else {
      assert evs[..k] == evs;
    }
  }

  /** The process-wide state `execute_workflow` reads and writes: the bootstrap and the two hook slots. */
  datatype Process = Process(boot: Boot, slots: Slots)

  /** A run's result (the capture table or the exception that escaped) and the process state afterwards. */
  datatype RunOutcome = RunOutcome(result: Result<Table, Exception>, process: Process)

  /**
    `execute_workflow(workflow)`. `init_comfyui()` runs first, then the
    executor is constructed; if either raises, nothing is patched. Otherwise `SaveImage.save_images` is saved, both
    slots are patched, the engine runs with a fresh sink and an empty table,
    and the `finally` puts the saved hook back into both slots whether the
    engine returned or raised.
   */
  function ExecuteWorkflow(p: Process, env: InitEnv, trace: Trace, png: PngEncoder): (r: RunOutcome)
    ensures InitComfyUI(p.boot, env).raised.Some? ==>
              r == RunOutcome(Failure(InitComfyUI(p.boot, env).raised.value), Process(InitComfyUI(p.boot, env).boot, p.slots))
    ensures InitComfyUI(p.boot, env).raised.None? && trace.setupRaises.Some? ==>
              r == RunOutcome(Failure(trace.setupRaises.value), Process(InitComfyUI(p.boot, env).boot, p.slots))
    ensures InitComfyUI(p.boot, env).raised.None? && trace.setupRaises.None? ==>
              r.process == Process(InitComfyUI(p.boot, env).boot, Slots(p.slots.saveImage, p.slots.saveImage))
    ensures r.process.slots.saveImage == p.slots.saveImage
    ensures r.result.Success? <==> InitComfyUI(p.boot, env).raised.None? && trace.setupRaises.None? && trace.ending.Completed?
    ensures trace.ending.Raise? && InitComfyUI(p.boot, env).raised.None? && trace.setupRaises.None? ==>
              r.result == Failure(trace.ending.error)
    ensures r.result.Success? ==> DistinctKeys(r.result.value)
  {
    var init := InitComfyUI(p.boot, env);
    if init.raised.Some? then
      RunOutcome(Failure(init.raised.value), Process(init.boot, p.slots))
    else if trace.setupRaises.Some? then
      RunOutcome(Failure(trace.setupRaises.value), Process(init.boot, p.slots))
    else
      var original := p.slots.saveImage;
      var during := Patched;
      var st := Replay(trace.events, during, png);
      ReplayDistinct(trace.events, during, png);
      var restored := Slots(original, original);
      match trace.ending
      case Completed => RunOutcome(Success(st.table), Process(init.boot, restored))
      case Raise(e) => RunOutcome(Failure(e), Process(init.boot, restored))
  }


  /**
    What a successful run returns: exactly the images the engine saved
    while each node was announced, grouped by node, nothing from an earlier
    run (each run starts from a fresh sink and an empty table).
   */
  lemma RunCaptures(p: Process, env: InitEnv, trace: Trace, png: PngEncoder, n: NodeId)
    requires ExecuteWorkflow(p, env, trace, png).result.Success?
    ensures var t := ExecuteWorkflow(p, env, trace, png).result.value;
            && (n in Keys(t) <==> exists i :: 0 <= i < |trace.events| && AttributedSave(trace.events, i, Patched, n))
            && (n in Keys(t) ==> Find(t, n) == Some(CapturedFor(trace.events, Patched, png, n)))
  {
    ReplayCaptures(trace.events, Patched, png, n);
  }
}

=== FILE: wrappers.dfy ===
/** Failure-compatible wrappers shared by every module of the model. */
module Wrappers {

  /** A value that may be absent: Python's `None` versus a present value. */
  datatype Option<+T> = None | Some(value: T) {

    /** The wrapped value, or `default` when there is none. */
    function GetOr(default: T): T {
      match this
      case Some(v) => v
      case None => default
    }
  }

  /** Either a computed value or the error that ended the computation. */
  datatype Result<+R, +E> = Success(value: R) | Failure(error: E)
}
